=== FILE: README.md ===
# hapi response transmission, modelled in Dafny

This project models the final response-sending step of the hapi server
(`lib/response/index.js`). It covers the pure decisions that step makes:

- the conditional-request check that may turn a GET or HEAD response into a 304;
- marshalling, which installs the empty stream for HEAD and 304 and deletes
  `content-length` and, on 304, the validators;
- the header phase: JSONP, header composition, and pass-through merging with
  the `set-cookie` concatenation rule;
- the failure adapter, which turns an error into a plain response and transmits it;
- content-encoding negotiation in the transmitter;
- the completion guard `end`, which reconciles the termination signals into one outcome.

Headers are immutable maps from names to a string or a list of strings. Each
phase is a pure function from one response record to the next. The streaming
phase is a fold of the termination events, in arrival order, over a record.
That record counts calls to `res.end()`, the completion callback and the
`disconnect` notification, and keeps the log entries.

Code the step calls but that is not part of this model is passed in as a
`Collaborators` record of functions:

- `Date.parse` becomes `string -> Option<int>`, with `None` standing for NaN.
- `response._marshall` returns a stream with its headers, or an error.
- `Headers.apply` returns new headers, or an error.
- `new Plain(payload, request)` builds the plain response.

A collaborator that fails is taken to leave the response as it found it.

Modules: `Wrappers` (Option, Result), `HeaderMaps` (header values and the
JavaScript truthiness, `===`, `String()`, `[].concat` and lower-casing the code
relies on), `Responses` (records), `Conditional`, `Marshal`, `Transmitter`,
`Termination`, `Pipeline` (`exports.send` and `internals.fail`).

Behaviours of the code worth knowing:

- A payload-stream error still leads to `res.end()`. Only `aborted` skips it.
- The failure adapter drops a second marshalling error, but then transmits
  anyway. If the payload collaborator failed on the error's own response, the
  payload slot is still `undefined` and the transmitter throws. With a falsy
  `content-encoding` the throw comes from reading `source._hapi` (line 191).
  Otherwise it comes from `source.once` (line 257), after the headers and the
  status have been written. The model calls either outcome `Crashed`.
  `Pipeline.CrashNeedsFailedErrorResponse` shows that this is the only way
  transmission fails to start.
- The completion callback fires once per exchange only once a termination
  signal arrives. Before any signal it has not fired.

The conditional check is compared with the evaluation order of section 6 of
RFC 7232, restricted to 2xx responses as section 5 requires. For the entity
tag, the comparison uses the source's own single-string test.
Against that reference the source differs in three ways:

- When the entity tags differ, it still applies the If-Modified-Since rule.
  The standard ignores If-Modified-Since whenever If-None-Match is present
  (`Conditional.DateRuleOverridesMismatchedEtag`).
- It downgrades any status, including a non-2xx one such as 404, to 304
  (`Conditional.NonSuccessStatusIsDowngraded`).
- It treats a date that parses to the epoch (timestamp 0) as no date. Section
  3.3 of the RFC accepts it as a valid date
  (`Conditional.EpochDateIsIgnored`).

`Conditional.AgreesWithRfcOrder` states where the two agree.

## Model

| member | source | states |
|---|---|---|
| Conditional.Evaluate | lib/response/index.js:37-65 | Only the status can change, and only to 304. It becomes 304 when the method is get or head and either the truthy etag strictly equals if-none-match or, failing that, both dates parse truthy with if-modified-since >= last-modified. Otherwise it stays as it was; any other method never changes it. |
| Conditional.EvaluateReadsOnlyValidators | lib/response/index.js:37-63 | The outcome depends only on the method, the status and the four validator headers. |
| Conditional.EvaluateIdempotent | lib/response/index.js:42-63 | Running the check on its own result changes nothing. |
| Conditional.AgreesWithRfcOrder | lib/response/index.js:42-63 | The reference is the section 6 order of RFC 7232: 2xx only, the source's entity-tag test, and its own If-Modified-Since rule that accepts the epoch. Unless a date is the epoch, every 304 the reference grants, the source grants too. For a 2xx response without If-None-Match, every 304 of the source is granted by the reference, and with no epoch date the two agree in both directions. |
| Conditional.DateRuleOverridesMismatchedEtag | lib/response/index.js:47-63 | Concrete case: a mismatched etag plus a fresh If-Modified-Since gives 304 in the source but not under the RFC order. |
| Conditional.NonSuccessStatusIsDowngraded | lib/response/index.js:42-46 | Concrete case: a 404 GET whose etag matches becomes 304 in the source, though RFC 7232 section 5 ignores the precondition for non-2xx statuses. |
| Conditional.EpochDateIsIgnored | lib/response/index.js:54-62 | Concrete case: both dates at the epoch leave a 200 GET at 200 in the source, though RFC 7232 section 3.3 grants 304. |
| Marshal.ToEmpty | lib/response/index.js:82-97 | The result carries the empty stream and the original is released. `content-length` is absent. On 304, `etag` and `last-modified` are absent. Otherwise they keep their values. Every other header keeps its value, and no header is added. |
| Marshal.ToEmptyIdempotent | lib/response/index.js:87-97 | Installing the empty stream twice is the same as once. |
| Marshal.ApplyJsonp | lib/response/index.js:117-122 | With a JSONP callback requested and a stream that can wrap: content-type becomes text/javascript and the stream gets the callback. The only key that may be added is content-type, and every other header keeps its value. Otherwise the response is untouched. |
| Marshal.ApplyJsonpIdempotent | lib/response/index.js:117-122 | Wrapping twice is the same as wrapping once. |
| Marshal.FirstSetCookieKey | lib/response/index.js:141-147 | The result is a stream header naming set-cookie in any case. No earlier listed key qualifies. None means no listed key qualifies. |
| Marshal.PassThrough | lib/response/index.js:132-150 | Without pass-through or stream headers, nothing changes. Otherwise the result holds the keys of both maps, and the response's own value wins on a clash. In the cookie case, the matched stream key is replaced by `set-cookie`, holding the stream's cookies followed by the response's own. |
| Marshal.CookieRuleSeesEveryStreamCookie | lib/response/index.js:140-147 | If the key order lists every stream header, any stream header naming set-cookie triggers the cookie rule when the response has its own cookies. |
| Marshal.FinishHeaders | lib/response/index.js:113-154 | Never changes the status, the release flag, Vary or the pass-through setting. The payload is the one the JSONP step produced. An error is reported exactly when header composition fails, and then the response is as the JSONP step left it. On success the headers are the composed ones: as composed without pass-through, or merged by the pass-through rule with it. |
| Marshal.Marshall | lib/response/index.js:79-110 | The status is never changed. HEAD and 304 get the empty stream and report an error exactly when header composition fails. Otherwise a payload collaborator failure is reported with the response untouched. On success the collaborator's stream and headers are installed and go through the header phase: the payload is the JSONP step's result on that stream, and an error is reported exactly when header composition fails, with that error. On both successful paths the result is exactly the header phase's result, so the deletions of the empty-stream step and the pass-through merge reach the output. The payload slot stays undefined only after such a failure. |
| Marshal.EmptyPathIgnoresPayloadCollaborator | lib/response/index.js:82-99 | For HEAD and 304 the outcome is the same whatever the payload collaborator does: it is never consulted. |
| Transmitter.StripContentLength | lib/response/index.js:195-201 | Exactly the headers whose name contains content-length, in any case, are removed. The others keep their values. |
| Transmitter.ContentEncodingIsNotALength | lib/response/index.js:198-203 | The `content-encoding` header set afterwards is not itself caught by the content-length test. |
| Transmitter.Negotiate | lib/response/index.js:190-207 | Applies only when content-encoding is falsy, the stream is not empty, and the preference is gzip or deflate. It then leaves no content-length-like key, sets content-encoding to the preference, adds accept-encoding to Vary, and picks the matching compressor; nothing else changes. Otherwise nothing changes and no compressor is chosen. |
| Transmitter.NegotiateOnce | lib/response/index.js:190-207 | A negotiated response is not negotiated again: a second pass chooses no compressor and changes nothing. |
| Transmitter.IdentityKeepsContentLength | lib/response/index.js:193-194 | With an encoding other than gzip or deflate, content-length is kept and no compressor is chosen. |
| Transmitter.Transmit | lib/response/index.js:183-207 | Transmission fails to start exactly when the payload slot is undefined. Status and stream are passed on unchanged. The headers and compressor sent are those of the encoding negotiation. The empty stream is sent as is, without a compressor. |
| Termination.Tags | lib/response/index.js:244-246 | Tags always start with hapi, response. They are exactly those two when there is neither an error nor an event, and otherwise the third tag is error. |
| Termination.Arguments | lib/response/index.js:257-274 | Which listener passes what to `end`. The payload and response error listeners pass an error and no event name. `aborted` passes the name aborted. Either `close` passes the name close. `finish` passes neither. |
| Termination.End | lib/response/index.js:226-255 | The first call marks the guard ended and calls back once. It calls `res.end()` unless the event is aborted, signals a disconnect iff there is an error or an event, and logs once with the error. Later calls change nothing. |
| Termination.Run | lib/response/index.js:225-274 | Stands in for the listeners: delivering events in arrival order ends the guard exactly when at least one event arrives. It adds one callback, and only if the guard had not yet fired. |
| Termination.RunAfterEnd | lib/response/index.js:228-242 | Once the guard has fired, any further events leave the state unchanged. |
| Termination.RunFirstWins | lib/response/index.js:225-274 | For any non-empty event sequence, the outcome equals an independent per-event table for the first event alone. |
| Termination.CallbackExactlyOnce | lib/response/index.js:226-253 | For any non-empty event sequence, the guard ends with exactly one callback and one log entry. |
| Termination.ResponseEndedUnlessAborted | lib/response/index.js:231-233 | `res.end()` is called exactly once if the first signal is not aborted, and never if it is. |
| Termination.DisconnectUnlessFinished | lib/response/index.js:248-250 | A disconnect is signalled exactly when the first signal has an error or event name, that is, unless it is finish. |
| HeaderMaps.Overlay | lib/response/index.js:162 | Every key of either map is present, and the overlaid map's values win. |
| Pipeline.FailureResponse | lib/response/index.js:157-163 | The plain response carries the error's status. Every error header is present with its value. Every other header comes unchanged from the plain response. |
| Pipeline.Fail | lib/response/index.js:157-170 | A transmitted error response has the error's status. For HEAD it is always transmitted, empty and without a compressor. It fails to start only when the payload collaborator failed on the error response. |
| Pipeline.Send | lib/response/index.js:30-76 | A HEAD request is always transmitted with the empty stream and no compressor, whatever happens. An error reply is transmitted with the error's status. |
| Pipeline.MarshalErrorSetsStatus | lib/response/index.js:67-72 | When marshalling reports an error, the transmitted status is that error's status. |
| Pipeline.NotModifiedIsSentEmpty | lib/response/index.js:37-99 | When the conditional rule fires and header composition succeeds, the transmission is 304 with the empty stream and no compressor. |
| Pipeline.OtherMethodKeepsStatus | lib/response/index.js:37-38 | For methods other than get and head with successful marshalling, the transmitted status is the response's own. |
| Pipeline.CrashNeedsFailedErrorResponse | lib/response/index.js:66-72 | When transmission fails to start, it went through the failure adapter. For a normal reply, marshalling reported an error. The payload collaborator failed on the failure adapter's response for that error, or for the handler's error. |
| Pipeline.SendTransmitsWhenPayloadsMarshal | lib/response/index.js:165-191 | If the payload collaborator never fails, every send starts transmission. |
| Pipeline.ExchangeCallsBackOnce | lib/response/index.js:225-255 | A transmitted exchange that gets any termination signal calls back exactly once. It ends the response unless the first signal is aborted. |

## Left out

- `exports.wrap` (lines 22-27): type dispatch to constructors that are not part of this model.
- Boom.wrap (line 105): payload collaborator errors are taken to be error objects already. Header-composition errors are assumed to be error objects as well, since line 127 passes them on unwrapped and line 159 reads their `output`.
- `request._setResponse` (line 70) and the logging sink: logging is kept only as the list of `(tags, err)` entries.
- Shot injection (lines 177-181): a test-harness side channel that is not part of the wire contract.
- Header writing and `writeHead` (lines 211-217): the transmitted headers are the final map. The order of `setHeader` calls is not modelled.
- Tap creation and stream piping (lines 221, 276-278): Node stream behaviour. The zlib compressors (line 205) are reduced to the choice none/gzip/deflate.
- Listener registration and `removeListener` (lines 235-242, 257-274): these are modelled as the event fold, where the guard ignores every event after the first. Real concurrency is not modelled.
- `Date.parse`: a parameter with no calendar semantics.
- `response._close()`: a boolean `closed` on the response. The released resource is not modelled.
- `response.type`, `response._header`, `response.vary`, `_payload.jsonp`: each is modelled by its effect only. They set `content-type`, set the lower-cased key, add a token to the `vary` set, and record the callback name.
- HeaderMaps.Overlay: shallow only. `Hoek.merge` concatenates two list values under the same key and handles null values, and `Hoek.clone` copies deeply. Neither is modelled.
- AgreesWithRfcOrder: the reference uses the source's strict single-string entity-tag test. It leaves out the list syntax of If-None-Match (section 3.2 of RFC 7232), `*`, and weak comparison (section 2.3.2). So `If-None-Match: "a", "b"` or `W/"a"` against etag `"a"` is not a 304 in either. Its inclusion of the reference in the source is stated only when neither date is the epoch, since the source rejects epoch dates. Its date rule treats an empty header as no date, because `Date.parse` is abstract here and an empty string is not an HTTP-date.
- Marshal.PassThrough: inherits the shallow overlay, so a list-valued key present in both maps takes the response's value rather than Hoek's concatenation.
- Marshal.PassThrough: the `Object.keys` order of the stream's headers is the `keys` field of the stream. The scan also requires each listed key to be present in the headers.
- Pipeline.NotModifiedIsSentEmpty: does not state the absence of `etag`, `last-modified` and `content-length` at transmission. `Headers.apply` is opaque and may add headers. The absence is stated right after marshalling, by Marshal.ToEmpty.
- Lower-casing and the `/content\-length/i` test: ASCII letters only. JavaScript's Unicode case mapping is not modelled.
- Header values are strings or lists of strings. Numeric values are not modelled.
- The payload collaborator and header composer are assumed to leave the status alone and, on failure, to leave the response unchanged.
- What happens after a throw in transmission (`Crashed`) is not modelled.

=== FILE: conditional.dfy ===
/**
 * The conditional-request check at the top of the send path: a GET or HEAD
 * whose validators show the client already holds the representation is
 * downgraded to 304 Not Modified before any payload work is done.
 *
 * The rule is a simplified form of sections 3.2, 3.3 and 4.1 of RFC 7232:
 * the entity tag is compared as one plain string, the date rule is still
 * tried when the entity tags differ, a date at the epoch counts as none,
 * and any status, not only a 2xx one, may be downgraded.
 */
module Conditional {
  import opened Wrappers
  import opened HeaderMaps
  import opened Responses

  /** The source's method test: only GET and HEAD responses may be downgraded. */
  predicate IsGetOrHead(verb: string) {
    verb == "get" || verb == "head"
  }

  /** The response has a truthy `etag` that is strictly equal to the
      request's `if-none-match`. */
  predicate EtagMatches(req: Request, res: Response) {
    var etag := Lookup(res.headers, "etag");
    Truthy(etag) && StrictEquals(Lookup(req.headers, "if-none-match"), etag)
  }

  /** The truthiness of a `Date.parse` result: NaN and the epoch are falsy. */
  predicate DateTruthy(d: Option<int>) {
    d.Some? && d.value != 0
  }

  /** Both `if-modified-since` and `last-modified` are truthy, both parse to
      truthy timestamps, and the request's is not earlier. */
  predicate NotModifiedSince(parseDate: string -> Option<int>, req: Request, res: Response) {
    var ims := Lookup(req.headers, "if-modified-since");
    var lm := Lookup(res.headers, "last-modified");
    Truthy(ims) && Truthy(lm) &&
    var since := parseDate(ToJsString(ims.value));
    var modified := parseDate(ToJsString(lm.value));
    DateTruthy(since) && DateTruthy(modified) && since.value >= modified.value
  }

  /** The source's rule for answering 304: GET or HEAD, and either the
      entity tag or, failing that, the dates say the client's copy is fresh. */
  predicate Fires(parseDate: string -> Option<int>, req: Request, res: Response) {
    IsGetOrHead(req.verb) && (EtagMatches(req, res) || NotModifiedSince(parseDate, req, res))
  }

  /** The conditional step: sets the status to 304 exactly when the rule
      fires and changes nothing else. */
  function Evaluate(parseDate: string -> Option<int>, req: Request, res: Response): (r: Response)
    ensures r == res.(statusCode := r.statusCode)
    ensures !IsGetOrHead(req.verb) ==> r == res
    ensures Fires(parseDate, req, res) ==> r.statusCode == 304
    ensures !Fires(parseDate, req, res) ==> r.statusCode == res.statusCode
  {
    if !IsGetOrHead(req.verb) then res
    else if EtagMatches(req, res) then res.(statusCode := 304)
    else if NotModifiedSince(parseDate, req, res) then res.(statusCode := 304)
    else res
  }

  /** Request and response agree on everything the conditional step reads. */
  predicate SameValidators(req1: Request, res1: Response, req2: Request, res2: Response) {
    && req1.verb == req2.verb
    && res1.statusCode == res2.statusCode
    && Lookup(req1.headers, "if-none-match") == Lookup(req2.headers, "if-none-match")
    && Lookup(req1.headers, "if-modified-since") == Lookup(req2.headers, "if-modified-since")
    && Lookup(res1.headers, "etag") == Lookup(res2.headers, "etag")
    && Lookup(res1.headers, "last-modified") == Lookup(res2.headers, "last-modified")
  }

  /** The outcome depends on the method, the status and the four validator
      headers only; no other header influences it. */
  lemma EvaluateReadsOnlyValidators(parseDate: string -> Option<int>,
                                    req1: Request, res1: Response, req2: Request, res2: Response)
    requires SameValidators(req1, res1, req2, res2)
    ensures Evaluate(parseDate, req1, res1).statusCode == Evaluate(parseDate, req2, res2).statusCode
  {
  }

  /** Running the check a second time changes nothing. */
  lemma EvaluateIdempotent(parseDate: string -> Option<int>, req: Request, res: Response)
    ensures Evaluate(parseDate, req, Evaluate(parseDate, req, res)) == Evaluate(parseDate, req, res)
  {
  }

  /** The If-Modified-Since rule of section 3.3 of RFC 7232: both headers
      are present and are valid dates, the epoch included, and the
      representation has not been modified since the given date. An empty
      header is not a valid date. */
  predicate RfcDateRule(parseDate: string -> Option<int>, req: Request, res: Response) {
    var ims := Lookup(req.headers, "if-modified-since");
    var lm := Lookup(res.headers, "last-modified");
    Truthy(ims) && Truthy(lm) &&
    var since := parseDate(ToJsString(ims.value));
    var modified := parseDate(ToJsString(lm.value));
    since.Some? && modified.Some? && since.value >= modified.value
  }

  /** One of the two dates parses to the epoch, which the source's
      truthiness test treats as no date at all. */
  predicate EpochDate(parseDate: string -> Option<int>, req: Request, res: Response) {
    var ims := Lookup(req.headers, "if-modified-since");
    var lm := Lookup(res.headers, "last-modified");
    Truthy(ims) && Truthy(lm) &&
    (parseDate(ToJsString(ims.value)) == Some(0) || parseDate(ToJsString(lm.value)) == Some(0))
  }

  /** The evaluation order of section 6 of RFC 7232, restricted to the two
      validators the source reads and to responses that section 5 lets
      preconditions apply to (2xx): when the request carries If-None-Match,
      only the entity tag decides and If-Modified-Since is ignored. The
      entity-tag test is the source's own single-string comparison, not the
      list and weak comparison of sections 3.2 and 2.3.2. */
  predicate RfcNotModified(parseDate: string -> Option<int>, req: Request, res: Response) {
    IsGetOrHead(req.verb) && 200 <= res.statusCode < 300 &&
    if "if-none-match" in req.headers then EtagMatches(req, res)
    else RfcDateRule(parseDate, req, res)
  }

  /** Where the source and the standard's order agree. Unless a date is the
      epoch, the source grants every 304 the standard's order grants. For a
      2xx response to a request without If-None-Match, every 304 of the
      source is one the standard grants, and with no epoch date the two
      agree exactly. */
  lemma AgreesWithRfcOrder(parseDate: string -> Option<int>, req: Request, res: Response)
    ensures RfcNotModified(parseDate, req, res) && !EpochDate(parseDate, req, res) ==>
              Fires(parseDate, req, res)
    ensures "if-none-match" !in req.headers && 200 <= res.statusCode < 300 ==>
              (Fires(parseDate, req, res) ==> RfcNotModified(parseDate, req, res))
    ensures "if-none-match" !in req.headers && 200 <= res.statusCode < 300 && !EpochDate(parseDate, req, res) ==>
              (Fires(parseDate, req, res) <==> RfcNotModified(parseDate, req, res))
  {
  }

  /** First difference: a mismatched entity tag followed by a fresh
      modification date still yields 304 in the source. */
  lemma DateRuleOverridesMismatchedEtag()
    ensures var parseDate := (s: string) => Some(1);
            var req := Request("get", map["if-none-match" := Str("b"), "if-modified-since" := Str("x")], "", "identity");
            var res := Response(200, map["etag" := Str("a"), "last-modified" := Str("y")], Pending, false, {}, false);
            Evaluate(parseDate, req, res).statusCode == 304 && !RfcNotModified(parseDate, req, res)
  {
  }

  /** Second difference: the source downgrades any status, so a 404 whose
      etag matches becomes 304, where section 5 of RFC 7232 has the
      precondition ignored. */
  lemma NonSuccessStatusIsDowngraded()
    ensures var parseDate := (s: string) => None;
            var req := Request("get", map["if-none-match" := Str("a")], "", "identity");
            var res := Response(404, map["etag" := Str("a")], Pending, false, {}, false);
            Evaluate(parseDate, req, res).statusCode == 304 && !RfcNotModified(parseDate, req, res)
  {
  }

  /** Third difference: the source reads a date that parses to the epoch as
      no date, so a copy dated 1 January 1970 is never reported fresh,
      where section 3.3 of RFC 7232 grants the 304. */
  lemma EpochDateIsIgnored()
    ensures var parseDate := (s: string) => Some(0);
            var req := Request("get", map["if-modified-since" := Str("Thu, 01 Jan 1970 00:00:00 GMT")], "", "identity");
            var res := Response(200, map["last-modified" := Str("Thu, 01 Jan 1970 00:00:00 GMT")], Pending, false, {}, false);
            Evaluate(parseDate, req, res).statusCode == 200 && RfcNotModified(parseDate, req, res)
  {
  }
}

=== FILE: header_maps.dfy ===
/**
 * Response and request header objects, and the few JavaScript behaviours
 * the response pipeline relies on when it inspects them: truthiness,
 * strict equality, string conversion, `[].concat(v)` and ASCII lower-casing.
 */
module HeaderMaps {
  import opened Wrappers

  /** A header value is a string or, for multi-valued headers such as
      `set-cookie`, an array of strings. */
  datatype HeaderValue = Str(text: string) | List(items: seq<string>)

  /** A header object: property names to values, names compared exactly. */
  type HeaderMap = map<string, HeaderValue>

  /** Property access `headers[key]`; a missing key reads as `undefined`. */
  function Lookup(h: HeaderMap, key: string): (v: Option<HeaderValue>)
    ensures v.Some? <==> key in h
    ensures v.Some? ==> v.value == h[key]
  {
    if key in h then Some(h[key]) else None
  }

  /** JavaScript truthiness of a looked-up header: `undefined` and the empty
      string are falsy, every array (even an empty one) is truthy. */
  predicate Truthy(v: Option<HeaderValue>) {
    match v
    case None => false
    case Some(Str(s)) => s != ""
    case Some(List(_)) => true
  }

  /** `a === b` on two looked-up headers: strings compare by value,
      `undefined` equals `undefined`, and arrays compare by identity, which
      for values taken from two different header objects is never equal. */
  predicate StrictEquals(a: Option<HeaderValue>, b: Option<HeaderValue>) {
    match (a, b)
    case (None, None) => true
    case (Some(Str(x)), Some(Str(y))) => x == y
    case _ => false
  }

  /** `Array.prototype.join(',')`, which is also how an array is turned into
      a string when it is passed where a string is expected. */
  function Join(xs: seq<string>): (s: string)
    ensures |xs| == 1 ==> s == xs[0]
    ensures xs == [] ==> s == ""
  {
    if |xs| == 0 then ""
    else if |xs| == 1 then xs[0]
    else xs[0] + "," + Join(xs[1..])
  }

  /** `String(v)`: the string a header value becomes when parsed as a date. */
  function ToJsString(v: HeaderValue): string {
    match v
    case Str(s) => s
    case List(xs) => Join(xs)
  }

  /** `[].concat(v)`: a string becomes a one-element list, a list is kept. */
  function AsList(v: HeaderValue): (xs: seq<string>)
    ensures v.Str? ==> xs == [v.text]
    ensures v.List? ==> xs == v.items
  {
    match v
    case Str(s) => [s]
    case List(items) => items
  }

  /** Lower-cases ASCII capital letters and keeps every other character. */
  function LowerChar(c: char): (d: char)
    ensures 'A' <= c <= 'Z' ==> 'a' <= d <= 'z'
    ensures !('A' <= c <= 'Z') ==> d == c
  {
    if 'A' <= c <= 'Z' then (c as int - 'A' as int + 'a' as int) as char else c
  }

  /** `s.toLowerCase()`, restricted to ASCII letters. */
  function Lower(s: string): (r: string)
    ensures |r| == |s|
    ensures forall i :: 0 <= i < |s| ==> r[i] == LowerChar(s[i])
  {
    seq(|s|, i requires 0 <= i < |s| => LowerChar(s[i]))
  }

  /** `pattern` occurs in `s` starting at position `i`. */
  predicate MatchAt(s: string, pattern: string, i: int) {
    0 <= i && i + |pattern| <= |s| && s[i..i + |pattern|] == pattern
  }

  /** `pattern` occurs as a contiguous substring of `s`. */
  predicate Contains(s: string, pattern: string) {
    exists i :: 0 <= i <= |s| && MatchAt(s, pattern, i)
  }

  /** Lower-casing leaves a string without ASCII capitals as it is. */
  lemma LowerOfLowerCase(s: string)
    requires forall i :: 0 <= i < |s| ==> !('A' <= s[i] <= 'Z')
    ensures Lower(s) == s
  {
  }

  /** The case-insensitive regular-expression test `/pattern/i.test(s)` for
      a lower-case, metacharacter-free pattern. */
  predicate ContainsIgnoringCase(s: string, pattern: string) {
    Contains(Lower(s), pattern)
  }

  /** The shallow form of `Hoek.merge(base, top)`: every property of `top`
      is copied over `base`. */
  function Overlay(base: HeaderMap, top: HeaderMap): (r: HeaderMap)
    ensures r.Keys == base.Keys + top.Keys
    ensures forall k :: k in top ==> r[k] == top[k]
    ensures forall k :: k in base && k !in top ==> r[k] == base[k]
  {
    base + top
  }
}

=== FILE: marshal.dfy ===
/**
 * The marshalling phase: installing the empty stream for HEAD and 304
 * responses, running the payload collaborator otherwise, then finalising
 * headers (JSONP wrapping, header composition, pass-through merging).
 */
module Marshal {
  import opened Wrappers
  import opened HeaderMaps
  import opened Responses

  /** The response after marshalling and the error reported to the phase's
      callback, if any. On an error the response is left as it stood when
      the failing collaborator was called. */
  datatype Marshalled = Marshalled(response: Response, error: Option<Boom>)

  /** Whether marshalling installs the empty stream instead of calling the
      payload collaborator (body suppression for HEAD, section 4.3.2 of
      RFC 7231, and for 304, section 4.1 of RFC 7232). */
  predicate UsesEmptyStream(req: Request, res: Response) {
    req.verb == "head" || res.statusCode == 304
  }

  /** The headers a 304 response must not carry. */
  const Validators: set<string> := {"etag", "last-modified"}

  /** Releases the original payload, installs the empty stream and deletes
      the exact key `content-length`; on 304 it deletes the validators too.
      Only those keys go: every other header keeps its value. */
  function ToEmpty(res: Response): (r: Response)
    ensures r == res.(payload := Empty, closed := true, headers := r.headers)
    ensures "content-length" !in r.headers
    ensures res.statusCode == 304 ==> "etag" !in r.headers && "last-modified" !in r.headers
    ensures res.statusCode != 304 ==>
              Lookup(r.headers, "etag") == Lookup(res.headers, "etag") &&
              Lookup(r.headers, "last-modified") == Lookup(res.headers, "last-modified")
    ensures forall k :: k in r.headers ==> k in res.headers && r.headers[k] == res.headers[k]
    ensures forall k :: k in res.headers && k != "content-length" && k !in Validators ==> k in r.headers
  {
    var removed := if res.statusCode == 304 then {"content-length"} + Validators else {"content-length"};
    res.(payload := Empty, closed := true, headers := res.headers - removed)
  }

  /** Installing the empty stream twice is the same as installing it once. */
  lemma ToEmptyIdempotent(res: Response)
    ensures ToEmpty(ToEmpty(res)) == ToEmpty(res)
  {
  }

  /** When the request asks for JSONP and the stream can wrap its output,
      the content type becomes `text/javascript` and the stream is given the
      callback name; otherwise the response is untouched. */
  function ApplyJsonp(req: Request, res: Response): (r: Response)
    ensures req.jsonp != "" && res.payload.Stream? && res.payload.source.jsonpCapable ==>
              && Lookup(r.headers, "content-type") == Some(Str("text/javascript"))
              && r.payload == Stream(res.payload.source.(jsonpCallback := req.jsonp))
              && r.headers.Keys == res.headers.Keys + {"content-type"}
              && (forall k :: k in res.headers && k != "content-type" ==> r.headers[k] == res.headers[k])
              && r == res.(headers := r.headers, payload := r.payload)
    ensures !(req.jsonp != "" && res.payload.Stream? && res.payload.source.jsonpCapable) ==> r == res
  {
    if req.jsonp != "" && res.payload.Stream? && res.payload.source.jsonpCapable then
      res.(headers := res.headers["content-type" := Str("text/javascript")],
           payload := Stream(res.payload.source.(jsonpCallback := req.jsonp)))
    else res
  }

  /** Wrapping twice is the same as wrapping once. */
  lemma ApplyJsonpIdempotent(req: Request, res: Response)
    ensures ApplyJsonp(req, ApplyJsonp(req, res)) == ApplyJsonp(req, res)
  {
  }

  /** `key.toLowerCase() === 'set-cookie'`. */
  predicate IsSetCookie(key: string) {
    Lower(key) == "set-cookie"
  }

  /** A key of `h`, listed in `keys`, that names `set-cookie` in any case. */
  predicate CookieKeyAt(keys: seq<string>, h: HeaderMap, i: int)
    requires 0 <= i < |keys|
  {
    keys[i] in h && IsSetCookie(keys[i])
  }

  /** The first key, in enumeration order, that names `set-cookie`; the
      scan stops there, so any later such key is never looked at. */
  function FirstSetCookieKey(keys: seq<string>, h: HeaderMap): (r: Option<string>)
    ensures r.Some? ==> r.value in h && IsSetCookie(r.value)
    ensures r.Some? ==> exists i :: 0 <= i < |keys| && keys[i] == r.value &&
                          forall j :: 0 <= j < i ==> !CookieKeyAt(keys, h, j)
    ensures r.None? ==> forall i :: 0 <= i < |keys| ==> !CookieKeyAt(keys, h, i)
    decreases |keys|
  {
    if |keys| == 0 then None
    else if keys[0] in h && IsSetCookie(keys[0]) then Some(keys[0])
    else
      var rest := FirstSetCookieKey(keys[1..], h);
      assert forall i :: 1 <= i < |keys| ==> (CookieKeyAt(keys, h, i) <==> CookieKeyAt(keys[1..], h, i - 1));
      rest
  }

  /** Pass-through is configured and the stream exposes headers. */
  predicate PassThroughApplies(res: Response) {
    res.passThrough && res.payload.Stream? && res.payload.source.headers.Some?
  }

  /** The stream header that the cookie rule replaces: only looked for when
      the response already has a truthy `set-cookie`. */
  function CookieKey(res: Response): Option<string>
    requires PassThroughApplies(res)
  {
    if Truthy(Lookup(res.headers, "set-cookie"))
    then FirstSetCookieKey(res.payload.source.keys, res.payload.source.headers.value)
    else None
  }

  /** Pass-through merging: the stream's headers form the base and the
      response's own headers are laid over them; when the cookie rule
      applies, the matching stream key is dropped and `set-cookie` becomes
      the stream's cookies followed by the response's own. */
  function PassThrough(res: Response): (r: Response)
    ensures r == res.(headers := r.headers)
    ensures !PassThroughApplies(res) ==> r == res
    ensures PassThroughApplies(res) && CookieKey(res).None? ==>
              var ph := res.payload.source.headers.value;
              && r.headers.Keys == ph.Keys + res.headers.Keys
              && (forall k :: k in res.headers ==> r.headers[k] == res.headers[k])
              && (forall k :: k in ph && k !in res.headers ==> r.headers[k] == ph[k])
    ensures PassThroughApplies(res) && CookieKey(res).Some? ==>
              var ph := res.payload.source.headers.value;
              var c := CookieKey(res).value;
              && c in ph && IsSetCookie(c) && "set-cookie" in res.headers
              && r.headers.Keys == (ph.Keys + res.headers.Keys - {c}) + {"set-cookie"}
              && r.headers["set-cookie"] == List(AsList(ph[c]) + AsList(res.headers["set-cookie"]))
              && (forall k :: k in res.headers && k != c && k != "set-cookie" ==> r.headers[k] == res.headers[k])
              && (forall k :: k in ph && k !in res.headers && k != c && k != "set-cookie" ==> r.headers[k] == ph[k])
  {
    if !PassThroughApplies(res) then res
    else
      var ph := res.payload.source.headers.value;
      var local := res.headers;
      var merged := Overlay(ph, local);
      match CookieKey(res)
      case None => res.(headers := merged)
      case Some(c) =>
        res.(headers := (merged - {c})["set-cookie" := List(AsList(ph[c]) + AsList(local["set-cookie"]))])
  }

  /** When the stream's key order lists all its headers, a stream header
      naming `set-cookie` in any case is always found by the cookie rule. */
  lemma CookieRuleSeesEveryStreamCookie(res: Response, key: string)
    requires PassThroughApplies(res)
    requires Truthy(Lookup(res.headers, "set-cookie"))
    requires forall k :: k in res.payload.source.headers.value ==> k in res.payload.source.keys
    requires key in res.payload.source.headers.value && IsSetCookie(key)
    ensures CookieKey(res).Some?
  {
    var keys := res.payload.source.keys;
    var h := res.payload.source.headers.value;
    var i :| 0 <= i < |keys| && keys[i] == key;
    assert CookieKeyAt(keys, h, i);
  }

  /** The header phase: JSONP, then header composition (whose failure is
      reported untouched), then pass-through merging. */
  function FinishHeaders(env: Collaborators, req: Request, res: Response): (m: Marshalled)
    ensures m.response.statusCode == res.statusCode
    ensures m.response.closed == res.closed
    ensures res.payload.Empty? ==> m.response.payload == Empty
    ensures res.payload.Pending? ==> m.response.payload == Pending
    ensures res.payload.Stream? ==> m.response.payload.Stream?
    ensures m.error.Some? <==> env.compose(req, ApplyJsonp(req, res)).Failure?
    ensures m.error.Some? ==> m.error.value == env.compose(req, ApplyJsonp(req, res)).error
                              && m.response == ApplyJsonp(req, res)
    ensures m.response.payload == ApplyJsonp(req, res).payload
    ensures m.response.vary == res.vary && m.response.passThrough == res.passThrough
    ensures m.error.None? ==>
              var prepared := ApplyJsonp(req, res);
              var composed := prepared.(headers := env.compose(req, prepared).value);
              && (!PassThroughApplies(composed) ==> m.response.headers == composed.headers)
              && (PassThroughApplies(composed) ==> m.response.headers == PassThrough(composed).headers)
  {
    var prepared := ApplyJsonp(req, res);
    match env.compose(req, prepared)
    case Failure(e) => Marshalled(prepared, Some(e))
    case Success(h) => Marshalled(PassThrough(prepared.(headers := h)), None)
  }

  /** The marshalling phase. HEAD and 304 responses get the empty stream and
      never reach the payload collaborator; others get its stream, or its
      error with the response unchanged. The status is never changed. */
  function Marshall(env: Collaborators, req: Request, res: Response): (m: Marshalled)
    ensures m.response.statusCode == res.statusCode
    ensures UsesEmptyStream(req, res) ==> m.response.payload == Empty && m.response.closed
    ensures UsesEmptyStream(req, res) ==>
              (m.error.Some? <==> env.compose(req, ToEmpty(res)).Failure?)
    ensures !UsesEmptyStream(req, res) && env.marshal(res).Failure? ==>
              m == Marshalled(res, Some(env.marshal(res).error))
    ensures !UsesEmptyStream(req, res) && env.marshal(res).Success? ==> m.response.payload.Stream?
    ensures !UsesEmptyStream(req, res) && env.marshal(res).Success? ==>
              var installed := res.(payload := Stream(env.marshal(res).value.0), headers := env.marshal(res).value.1);
              && (m.error.Some? <==> env.compose(req, ApplyJsonp(req, installed)).Failure?)
              && (m.error.Some? ==> m.error.value == env.compose(req, ApplyJsonp(req, installed)).error)
              && m.response.payload == ApplyJsonp(req, installed).payload
    ensures !UsesEmptyStream(req, res) && env.marshal(res).Success? ==>
              m == FinishHeaders(env, req, res.(payload := Stream(env.marshal(res).value.0),
                                                headers := env.marshal(res).value.1))
    ensures UsesEmptyStream(req, res) ==> m == FinishHeaders(env, req, ToEmpty(res))
    ensures m.response.payload.Pending? ==>
              res.payload.Pending? && !UsesEmptyStream(req, res) && env.marshal(res).Failure?
  {
    if UsesEmptyStream(req, res) then FinishHeaders(env, req, ToEmpty(res))
    else
      match env.marshal(res)
      case Failure(e) => Marshalled(res, Some(e))
      case Success(produced) =>
        FinishHeaders(env, req, res.(payload := Stream(produced.0), headers := produced.1))
  }

  /** HEAD and 304 responses never consult the payload collaborator: any
      other collaborator in its place gives the same outcome. */
  lemma EmptyPathIgnoresPayloadCollaborator(env: Collaborators, req: Request, res: Response,
                                            other: Response -> Result<(Source, HeaderMap), Boom>)
    requires UsesEmptyStream(req, res)
    ensures Marshall(env.(marshal := other), req, res) == Marshall(env, req, res)
  {
  }
}

=== FILE: pipeline.dfy ===
/**
 * The send path as a whole: the conditional check, marshalling, the
 * failure adapter that turns an error into a plain response, and the
 * hand-over to transmission and its completion guard.
 */
module Pipeline {
  import opened Wrappers
  import opened HeaderMaps
  import opened Responses
  import opened Conditional
  import opened Marshal
  import opened Transmitter
  import opened Termination

  /** What the request holds when sending starts: a response descriptor, or
      an error the handler produced. */
  datatype Reply = Normal(response: Response) | Failed(boom: Boom)

  /** The response the failure adapter builds: a new plain response for the
      error's body, with the error's status, and the error's headers laid
      over the ones the plain response starts with. */
  function FailureResponse(env: Collaborators, boom: Boom): (r: Response)
    ensures r == env.newPlain(boom.payload).(statusCode := r.statusCode, headers := r.headers)
    ensures r.statusCode == boom.statusCode
    ensures forall k :: k in boom.headers ==> k in r.headers && r.headers[k] == boom.headers[k]
    ensures forall k :: k in r.headers && k !in boom.headers ==>
              k in env.newPlain(boom.payload).headers && r.headers[k] == env.newPlain(boom.payload).headers[k]
    ensures forall k :: k in env.newPlain(boom.payload).headers ==> k in r.headers
  {
    var plain := env.newPlain(boom.payload);
    plain.(statusCode := boom.statusCode, headers := Overlay(plain.headers, boom.headers))
  }

  /** The failure adapter: marshals the error response and transmits it
      whether or not that marshalling reports a second error, which is
      dropped. It never calls itself. */
  function Fail(env: Collaborators, req: Request, boom: Boom): (t: Transmission)
    ensures t.Sent? ==> t.response.statusCode == boom.statusCode
    ensures req.verb == "head" ==> t.Sent? && t.response.payload == Empty && t.encoder == NoEncoder
    ensures t.Crashed? ==>
              var plain := FailureResponse(env, boom);
              plain.payload.Pending? && !UsesEmptyStream(req, plain) && env.marshal(plain).Failure?
  {
    var plain := FailureResponse(env, boom);
    var m := Marshall(env, req, plain);
    Transmit(req, m.response)
  }

  /** The entry point: an error goes straight to the failure adapter;
      otherwise the conditional check runs, then marshalling, whose error
      is handed to the failure adapter, then transmission. */
  function Send(env: Collaborators, req: Request, reply: Reply): (t: Transmission)
    ensures req.verb == "head" ==> t.Sent? && t.response.payload == Empty && t.encoder == NoEncoder
    ensures reply.Failed? && t.Sent? ==> t.response.statusCode == reply.boom.statusCode
  {
    match reply
    case Failed(boom) => Fail(env, req, boom)
    case Normal(res) =>
      var checked := Evaluate(env.parseDate, req, res);
      var m := Marshall(env, req, checked);
      if m.error.Some? then Fail(env, req, m.error.value)
      else Transmit(req, m.response)
  }

  /** A marshalling error is answered with the error's own status. */
  lemma MarshalErrorSetsStatus(env: Collaborators, req: Request, res: Response)
    requires Marshall(env, req, Evaluate(env.parseDate, req, res)).error.Some?
    ensures var boom := Marshall(env, req, Evaluate(env.parseDate, req, res)).error.value;
            var t := Send(env, req, Normal(res));
            t.Sent? ==> t.response.statusCode == boom.statusCode
  {
  }

  /** A fresh client copy of a GET or HEAD response is answered with 304,
      no body and no compressor, once headers are composed. */
  lemma NotModifiedIsSentEmpty(env: Collaborators, req: Request, res: Response)
    requires Fires(env.parseDate, req, res)
    requires Marshall(env, req, Evaluate(env.parseDate, req, res)).error.None?
    ensures var t := Send(env, req, Normal(res));
            t.Sent? && t.response.statusCode == 304 && t.response.payload == Empty && t.encoder == NoEncoder
  {
  }

  /** Methods other than GET and HEAD keep their status when marshalling
      succeeds. */
  lemma OtherMethodKeepsStatus(env: Collaborators, req: Request, res: Response)
    requires !IsGetOrHead(req.verb)
    requires Marshall(env, req, res).error.None?
    ensures var t := Send(env, req, Normal(res));
            t.Sent? ==> t.response.statusCode == res.statusCode
  {
  }

  /** The only way to reach transmission with no stream at all is a failure
      of the payload collaborator on the failure adapter's own response; if
      the payload collaborator never fails, sending always transmits. */
  lemma SendTransmitsWhenPayloadsMarshal(env: Collaborators, req: Request, reply: Reply)
    requires forall r :: env.marshal(r).Success?
    ensures Send(env, req, reply).Sent?
  {
  }

  /** A send fails to start transmission only through the failure adapter:
      the error it adapts is the handler's error or the marshalling error,
      and the payload collaborator failed on that error's own response. */
  lemma CrashNeedsFailedErrorResponse(env: Collaborators, req: Request, reply: Reply)
    requires Send(env, req, reply).Crashed?
    ensures reply.Normal? ==> Marshall(env, req, Evaluate(env.parseDate, req, reply.response)).error.Some?
    ensures var boom := if reply.Failed? then reply.boom
                        else Marshall(env, req, Evaluate(env.parseDate, req, reply.response)).error.value;
            env.marshal(FailureResponse(env, boom)).Failure?
  {
  }

  /** The whole exchange: the completion guard runs over the events only
      when transmission started. */
  function Exchange(env: Collaborators, req: Request, reply: Reply, events: seq<Event>): State {
    match Send(env, req, reply)
    case Crashed => Initial
    case Sent(_, _) => Run(Initial, events)
  }

  /** Every transmitted exchange that receives a termination signal calls
      back exactly once, and ends the response unless the client aborted. */
  lemma ExchangeCallsBackOnce(env: Collaborators, req: Request, reply: Reply, events: seq<Event>)
    requires Send(env, req, reply).Sent?
    requires |events| > 0
    ensures Exchange(env, req, reply, events).callbackCalls == 1
    ensures Exchange(env, req, reply, events).resEndCalls == (if events[0] == ReqAborted then 0 else 1)
  {
    CallbackExactlyOnce(events);
    ResponseEndedUnlessAborted(events);
  }
}

=== FILE: responses.dfy ===
/**
 * The records the response pipeline threads through its phases: the
 * request it answers, the response descriptor, the payload stream, the
 * error shape, and the collaborators whose code lies outside this model.
 */
module Responses {
  import opened Wrappers
  import opened HeaderMaps

  /** A payload stream produced by the payload collaborator. `headers` are
      the headers it exposes for pass-through (`_payload.headers`), `keys`
      the order in which `Object.keys` enumerates them, `jsonpCapable`
      whether it offers a `jsonp` method, and `jsonpCallback` the callback
      name it was told to wrap its output with ("" when none). */
  datatype Source = Source(
    headers: Option<HeaderMap>,
    keys: seq<string>,
    jsonpCapable: bool,
    jsonpCallback: string)

  /** The `_payload` slot of a response: `Pending` before the payload
      collaborator has run (the slot is `undefined`), `Empty` for the
      zero-byte stream installed for HEAD and 304 responses, or a stream. */
  datatype Payload = Pending | Empty | Stream(source: Source)

  /** The response descriptor. `vary` holds the tokens given to
      `response.vary`, and `closed` records that `response._close()` has
      released the resources of the original payload. */
  datatype Response = Response(
    statusCode: int,
    headers: HeaderMap,
    payload: Payload,
    passThrough: bool,
    vary: set<string>,
    closed: bool)

  /** The request being answered. `verb` is the lower-case method, `jsonp` is the
      requested JSONP callback name ("" when none) and `preferredEncoding`
      the result of content negotiation done before this pipeline. */
  datatype Request = Request(
    verb: string,
    headers: HeaderMap,
    jsonp: string,
    preferredEncoding: string)

  /** The output of an error object: its status, headers and body. */
  datatype Boom = Boom(statusCode: int, headers: HeaderMap, payload: string)

  /** The compressor placed between the payload and the connection. */
  datatype Encoder = NoEncoder | Gzip | Deflate

  /** Code the pipeline calls but that is not part of this model:
      `parseDate` is `Date.parse` (`None` stands for NaN), `marshal` is
      `response._marshall` (a stream and its final headers, or an error),
      `compose` is `Headers.apply` (the new headers, or an error) and
      `newPlain` is `new Plain(payload, request)`. A collaborator that
      fails leaves the response as it found it. */
  datatype Collaborators = Collaborators(
    parseDate: string -> Option<int>,
    marshal: Response -> Result<(Source, HeaderMap), Boom>,
    compose: (Request, Response) -> Result<HeaderMap, Boom>,
    newPlain: string -> Response)
}

=== FILE: termination.dfy ===
/**
 * The completion guard of the streaming phase. Six listeners (payload
 * `error`, request `aborted` and `close`, response `close`, `error` and
 * `finish`) all call one `end` closure, which acts only on its first call
 * and then removes every listener. The events are modelled as a sequence
 * in arrival order, folded over the guard's observable state.
 */
module Termination {
  import opened Wrappers

  /** An error object; every error is truthy. */
  datatype Error = Error(message: string)

  /** The termination signals, in the shape each listener receives them. */
  datatype Event =
    | SourceError(sourceError: Error)   // payload stream `error`
    | ReqAborted                        // request `aborted`
    | ReqClose                          // request `close`
    | ResClose                          // response `close`
    | ResError(resError: Error)         // response `error`
    | ResFinish                         // response `finish`

  /** One `request.log(tags, err)` call. */
  datatype LogEntry = LogEntry(tags: seq<string>, error: Option<Error>)

  /** What the guard has done so far: whether it has fired, how often it
      called `res.end()`, the completion callback and
      `request.emit('disconnect')`, and what it logged. */
  datatype State = State(
    hasEnded: bool,
    resEndCalls: nat,
    callbackCalls: nat,
    disconnects: nat,
    log: seq<LogEntry>)

  /** Nothing has happened yet. */
  const Initial: State := State(false, 0, 0, 0, [])

  /** The `(err, event)` arguments each listener passes to `end`:
      the error listeners pass their error, `aborted` and `close` pass a
      null error and their event name, `finish` passes nothing. */
  function Arguments(ev: Event): (r: (Option<Error>, Option<string>))
    ensures r.0.Some? <==> ev.SourceError? || ev.ResError?
    ensures r.0.Some? ==> r.1.None?
    ensures r.1 == Some("aborted") <==> ev == ReqAborted
    ensures r.1 == Some("close") <==> ev == ReqClose || ev == ResClose
    ensures r == (None, None) <==> ev == ResFinish
  {
    match ev
    case SourceError(e) => (Some(e), None)
    case ReqAborted => (None, Some("aborted"))
    case ReqClose => (None, Some("close"))
    case ResClose => (None, Some("close"))
    case ResError(e) => (Some(e), None)
    case ResFinish => (None, None)
  }

  /** The log tags of the outcome: an error, a named event, or a normal finish. */
  function Tags(err: Option<Error>, event: Option<string>): (tags: seq<string>)
    ensures 2 <= |tags| && tags[..2] == ["hapi", "response"]
    ensures |tags| == 2 <==> err.None? && event.None?
    ensures |tags| > 2 ==> tags[2] == "error"
  {
    if err.Some? then ["hapi", "response", "error"]
    else if event.Some? then ["hapi", "response", "error", event.value]
    else ["hapi", "response"]
  }

  /** The `end` closure. Its first call claims termination: it ends the
      response unless the event is `aborted`, signals a disconnect when
      there is an error or an event, logs once and calls back once.
      Every later call has no effect. */
  function End(s: State, err: Option<Error>, event: Option<string>): (t: State)
    ensures s.hasEnded ==> t == s
    ensures !s.hasEnded ==>
              && t.hasEnded
              && t.callbackCalls == s.callbackCalls + 1
              && t.resEndCalls == s.resEndCalls + (if event == Some("aborted") then 0 else 1)
              && t.disconnects == s.disconnects + (if err.Some? || event.Some? then 1 else 0)
              && |t.log| == |s.log| + 1 && t.log[..|s.log|] == s.log
              && t.log[|s.log|].error == err
  {
    if s.hasEnded then s
    else
      State(true,
            s.resEndCalls + (if event != Some("aborted") then 1 else 0),
            s.callbackCalls + 1,
            s.disconnects + (if event.Some? || err.Some? then 1 else 0),
            s.log + [LogEntry(Tags(err, event), err)])
  }

  /** Delivers one event to its listener. */
  function Step(s: State, ev: Event): State {
    End(s, Arguments(ev).0, Arguments(ev).1)
  }

  /** Delivers the events in arrival order. */
  function Run(s: State, events: seq<Event>): (r: State)
    ensures r.hasEnded <==> s.hasEnded || |events| > 0
    ensures r.callbackCalls == s.callbackCalls + (if s.hasEnded || |events| == 0 then 0 else 1)
    decreases |events|
  {
    if |events| == 0 then s else Run(Step(s, events[0]), events[1..])
  }

  /** The expected outcome of a termination whose first signal is `ev`,
      stated per event without reference to `end`. */
  function FirstOutcome(ev: Event): State {
    var tags := match ev
      case SourceError(_) => ["hapi", "response", "error"]
      case ResError(_) => ["hapi", "response", "error"]
      case ReqAborted => ["hapi", "response", "error", "aborted"]
      case ReqClose => ["hapi", "response", "error", "close"]
      case ResClose => ["hapi", "response", "error", "close"]
      case ResFinish => ["hapi", "response"];
    var err := match ev
      case SourceError(e) => Some(e)
      case ResError(e) => Some(e)
      case _ => None;
    State(true,
          if ev == ReqAborted then 0 else 1,
          1,
          if ev == ResFinish then 0 else 1,
          [LogEntry(tags, err)])
  }

  /** Once the guard has fired, no further event changes anything. */
  lemma {:induction false} RunAfterEnd(s: State, events: seq<Event>)
    requires s.hasEnded
    ensures Run(s, events) == s
    decreases |events|
  {
    if |events| > 0 {
      assert Step(s, events[0]) == s;
      RunAfterEnd(s, events[1..]);
    }
  }

  /** First signal wins: the outcome of any non-empty event sequence is the
      outcome of its first event alone. */
  lemma {:induction false} RunFirstWins(events: seq<Event>)
    requires |events| > 0
    ensures Run(Initial, events) == FirstOutcome(events[0])
  {
    var first := Step(Initial, events[0]);
    assert first == FirstOutcome(events[0]);
    RunAfterEnd(first, events[1..]);
  }

  /** The completion callback fires exactly once for every non-empty event
      sequence, whatever events follow the first and in whatever order. */
  lemma CallbackExactlyOnce(events: seq<Event>)
    requires |events| > 0
    ensures Run(Initial, events).hasEnded
    ensures Run(Initial, events).callbackCalls == 1
    ensures |Run(Initial, events).log| == 1
  {
    RunFirstWins(events);
  }

  /** `res.end()` is called exactly once unless the first signal is the
      client's abort, and then never. */
  lemma ResponseEndedUnlessAborted(events: seq<Event>)
    requires |events| > 0
    ensures events[0] == ReqAborted ==> Run(Initial, events).resEndCalls == 0
    ensures events[0] != ReqAborted ==> Run(Initial, events).resEndCalls == 1
  {
    RunFirstWins(events);
  }

  /** A disconnect is signalled exactly when the first signal carries an
      error or an event name, that is, unless the response finished. */
  lemma DisconnectUnlessFinished(events: seq<Event>)
    requires |events| > 0
    ensures Run(Initial, events).disconnects == (if events[0] == ResFinish then 0 else 1)
    ensures Run(Initial, events).disconnects == 1 <==>
              Arguments(events[0]).0.Some? || Arguments(events[0]).1.Some?
  {
    RunFirstWins(events);
  }
}

=== FILE: transmitter.dfy ===
/**
 * The transmission setup: content-encoding negotiation (section 3.1.2.2
 * and section 7.1.4 of RFC 7231) and the hand-over of status, headers and
 * stream to the connection.
 */
module Transmitter {
  import opened Wrappers
  import opened HeaderMaps
  import opened Responses

  /** The response after negotiation and the compressor chosen for it. */
  datatype Negotiated = Negotiated(response: Response, encoder: Encoder)

  /** What is handed to the connection: the final status, headers and
      stream with its compressor, or `Crashed` when the payload slot is
      still `undefined`. The throw then comes from reading `source._hapi`
      when `content-encoding` is falsy, and otherwise from `source.once`,
      after headers and status have been written. */
  datatype Transmission = Sent(response: Response, encoder: Encoder) | Crashed

  /** A header name the source's `/content\-length/i` test matches. */
  predicate MentionsContentLength(key: string) {
    ContainsIgnoringCase(key, "content-length")
  }

  /** Negotiation happens when no truthy `content-encoding` is set, the
      stream is not the empty one, and the client prefers gzip or deflate. */
  predicate EncodingApplies(encoding: string, res: Response) {
    && !Truthy(Lookup(res.headers, "content-encoding"))
    && !res.payload.Empty?
    && (encoding == "gzip" || encoding == "deflate")
  }

  /** Deletes every header whose name mentions content-length in any case. */
  function StripContentLength(h: HeaderMap): (r: HeaderMap)
    ensures forall k :: k in r <==> k in h && !MentionsContentLength(k)
    ensures forall k :: k in r ==> r[k] == h[k]
  {
    map k | k in h && !MentionsContentLength(k) :: h[k]
  }

  /** The header set by negotiation does not itself mention content-length. */
  lemma ContentEncodingIsNotALength()
    ensures !MentionsContentLength("content-encoding")
  {
    var s := "content-encoding";
    var p := "content-length";
    LowerOfLowerCase(s);
    forall i | 0 <= i <= |s|
      ensures !MatchAt(s, p, i)
    {
      if i == 0 {
        assert s[i..i + |p|][8] != p[8];
      } else if i == 1 || i == 2 {
        assert s[i..i + |p|][0] != p[0];
      }
    }
  }

  /** Content-encoding negotiation. When it applies, every content-length
      header goes, `content-encoding` is set to the negotiated encoding,
      `accept-encoding` joins Vary and the matching compressor is chosen;
      nothing else changes. Otherwise the response is untouched and no
      compressor is chosen. */
  function Negotiate(encoding: string, res: Response): (n: Negotiated)
    ensures n.response == res.(headers := n.response.headers, vary := n.response.vary)
    ensures !EncodingApplies(encoding, res) ==> n == Negotiated(res, NoEncoder)
    ensures EncodingApplies(encoding, res) ==>
              && (forall k :: k in n.response.headers ==> !MentionsContentLength(k))
              && Lookup(n.response.headers, "content-encoding") == Some(Str(encoding))
              && n.response.vary == res.vary + {"accept-encoding"}
              && n.encoder == (if encoding == "gzip" then Gzip else Deflate)
              && (forall k :: k in res.headers && k != "content-encoding" && !MentionsContentLength(k) ==>
                    k in n.response.headers && n.response.headers[k] == res.headers[k])
              && (forall k :: k in n.response.headers && k != "content-encoding" ==>
                    k in res.headers && n.response.headers[k] == res.headers[k])
  {
    if EncodingApplies(encoding, res) then
      ContentEncodingIsNotALength();
      var headers := StripContentLength(res.headers)["content-encoding" := Str(encoding)];
      Negotiated(res.(headers := headers, vary := res.vary + {"accept-encoding"}),
                 if encoding == "gzip" then Gzip else Deflate)
    else Negotiated(res, NoEncoder)
  }

  /** A negotiated response is never negotiated again: a second pass finds
      `content-encoding` set and chooses no second compressor. */
  lemma NegotiateOnce(encoding: string, res: Response)
    ensures var first := Negotiate(encoding, res);
            Negotiate(encoding, first.response) == Negotiated(first.response, NoEncoder)
  {
  }

  /** The identity encoding, or any encoding other than gzip and deflate,
      keeps a content-length header where it is. */
  lemma IdentityKeepsContentLength(encoding: string, res: Response)
    requires encoding != "gzip" && encoding != "deflate"
    requires "content-length" in res.headers
    ensures Negotiate(encoding, res).response.headers["content-length"] == res.headers["content-length"]
    ensures Negotiate(encoding, res).encoder == NoEncoder
  {
  }

  /** The transmission step: negotiates the encoding and hands status,
      headers and stream to the connection, unless the payload slot is
      still undefined. The status and the stream are passed on unchanged. */
  function Transmit(req: Request, res: Response): (t: Transmission)
    ensures t.Crashed? <==> res.payload.Pending?
    ensures t.Sent? ==> t.response.statusCode == res.statusCode && t.response.payload == res.payload
    ensures t.Sent? && res.payload.Empty? ==> t == Sent(res, NoEncoder)
    ensures t.Sent? ==> t.response == Negotiate(req.preferredEncoding, res).response
                        && t.encoder == Negotiate(req.preferredEncoding, res).encoder
  {
    if res.payload.Pending? then Crashed
    else
      var n := Negotiate(req.preferredEncoding, res);
      Sent(n.response, n.encoder)
  }
}

=== FILE: wrappers.dfy ===
/** Failure-carrying wrappers used throughout the model. */
module Wrappers {

  /** A value that may be absent: JavaScript's `undefined` for a missing key. */
  datatype Option<+T> = None | Some(value: T)

  /** The outcome of a collaborator that reports errors through its callback. */
  datatype Result<+T, +E> = Success(value: T) | Failure(error: E)
}
